=== FILE: README.md ===
# Library catalog — a Dafny model

This project models the catalog of a small library record keeper
(`Bibliotheque` in `src/bibliotheque.py`). The catalog holds books (`Livre`),
keyed by ISBN, and members (`Membre`), keyed by member identifier. It has four
operations that change it:

- add a book;
- register a member;
- borrow a book, with a quota of three books per member;
- return a book.

It also writes itself to two flat text files and reads them back.

Modules:

- `Wrappers` (`wrappers.dfy`): `Option` and `Result`.
- `Text` (`text.dfy`): the Python string built-ins the file formats rely on.
  These are `strip()` with Python's whitespace set, `split(sep)`, `sep.join`,
  and iteration over the lines of a text-mode file, including the
  universal-newline translation.
- `Entities` (`entities.dfy`): `Book` and `Member`, their constructors, and the
  member's own borrowed-list helpers (`emprunter_livre` / `rendre_livre` on
  `Membre`).
- `Library` (`library.dfy`): the `Catalog` value (two maps plus the activity
  log) and its operations. Borrow and return are pure functions returning a
  `Result`. It also holds the invariant `WellFormed` and the lemmas that the
  operations preserve it.
- `Storage` (`storage.dfy`): the line formats `isbn;titre;auteur;annee;genre;True|False`
  and `id;nom;a,b,c`, the file texts written by `sauvegarder_donnees`, and the
  additive loading of `charger_donnees`. It ends with the save-then-load round trip.
- `Scenarios` (`scenarios.dfy`): worked examples on concrete data.

State and errors:

- The catalog is an immutable value, and every operation returns the next one.
- A borrow raises one of four errors: `LivreInexistant`, `MembreInexistant`,
  `LivreIndisponible`, `QuotaEmpruntDepasse`. Each becomes an `Err` of that kind.
- The three messages the return path prints become the kinds of `ReturnRefusal`.
- An `Err` carries no catalog. So after a refused call the caller's catalog is
  the state, just as the source raises or returns before it assigns anything.

Invariant (`Library.WellFormed`):

- Each book is stored under its own ISBN, and each member under their own identifier.
- Each borrowed list has at most three entries and no duplicate.
- Each borrowed ISBN is a book of the catalog.
- A book is out exactly when one member holds it, and on the shelf exactly when nobody does.

The second and fourth bullets are the rules the catalog is built around. The
first and third hold in every state the operations reach. The third is needed
so that adding a book preserves the holder clause: nobody can hold an ISBN
that was not yet a key.

The invariant holds for the empty catalog. Borrowing and returning preserve
it. Adding a book preserves it when the book is on the shelf, and registering
a member preserves it when the member holds nothing; every caller in the
repository passes a freshly built record, which meets both conditions.
Loading does not establish the invariant. A member line may list an ISBN
that has no book line, and a book saved as `True` may be held by a member.
What loading does promise (`Storage.SaveThenLoad`) is that a catalog whose
records are savable comes back intact. Savable means: no field holds `;` or a
line break, no borrowed ISBN holds `,`, a member does not hold the single
empty ISBN, and the ends of each line are not whitespace that `strip()`
would cut. Nothing in the code enforces this. A book titled `a;b` is saved as
a seven-field line, and loading then raises at that line. So a well-formed
catalog of savable records that is saved and loaded back is still
well-formed; others may not come back at all.

Three facts about the code shape the model:

- `ajouter_livre` stores the `Livre` object as given and does not set its
  flag. Every caller passes a fresh `Livre` (src/interface.py:81,
  src/main.py:26), which is on the shelf. So the preservation lemma assumes
  the added book is available.
- Returning a book does not look at the availability flag. It only checks that
  the member's list holds the ISBN.
- The return path refuses an unknown book, an unknown member, and a book the
  member did not borrow. It prints a message for each and changes nothing.

## Model

| member | source | states |
|---|---|---|
| Entities.NewBook | src/bibliotheque.py:12-18 | a new book carries the given fields and is on the shelf |
| Entities.NewMember | src/bibliotheque.py:26-29 | a new member carries the given identifier and name and holds no book |
| Entities.AddLoan | src/bibliotheque.py:31-33 | the ISBN is in the list afterwards; it is appended only when absent, otherwise the member is unchanged; a duplicate-free list stays duplicate-free |
| Entities.RemoveLoan | src/bibliotheque.py:35-37 | an absent ISBN changes nothing; a present one shortens the list by one, every other ISBN keeps its membership, and a duplicate-free list no longer holds the ISBN |
| Entities.RemoveFirst | src/bibliotheque.py:37 | `list.remove`: exactly one occurrence fewer (as multisets), the identity when the element is absent |
| Entities.RemoveFirstIsFirstOccurrence | src/bibliotheque.py:37 | the removed occurrence is the first one, and the order of the others is kept |
| Entities.RemoveFirstNoDuplicates | src/bibliotheque.py:35-37 | removing from a duplicate-free list leaves no copy of the element and no duplicate |
| Entities.RemoveLoanUndoesAddLoan | src/bibliotheque.py:31-37 | returning an ISBN just borrowed (and not held before) gives back the member as before |
| Library.Empty | src/bibliotheque.py:44-46 | the new catalog has no book, no member and no log entry, and satisfies the invariant |
| Library.AddBook | src/bibliotheque.py:48-53 | a duplicate ISBN leaves the catalog unchanged; otherwise exactly the entry ISBN to book is added, every old book is kept, members and log unchanged |
| Library.RegisterMember | src/bibliotheque.py:55-60 | the same duplicate-key no-op or single insert on the member map; books and log unchanged |
| Library.Borrow | src/bibliotheque.py:70-89 | errors in fixed order (unknown book even when the member is unknown too, then unknown member, then book out, then three books held); success exactly when none applies; on success the book is out, the member's list gained the ISBN, one `emprunt` entry is logged, all other books and members unchanged |
| Library.Return | src/bibliotheque.py:91-108 | unknown book, unknown member, or ISBN not in the member's list is refused; otherwise the book is on the shelf, the list lost the ISBN and is one shorter, one `retour` entry is logged, all other books and members unchanged |
| Library.EmptyIsWellFormed | src/bibliotheque.py:44-46 | the empty catalog satisfies the invariant |
| Library.AddBookPreservesWellFormed | src/bibliotheque.py:48-53 | adding an available book keeps the invariant |
| Library.RegisterMemberPreservesWellFormed | src/bibliotheque.py:55-60 | registering a member who holds nothing keeps the invariant |
| Library.BorrowPreservesWellFormed | src/bibliotheque.py:80-87 | a successful borrow keeps the invariant: quota bound, no duplicates, out exactly when one member holds the book |
| Library.ReturnPreservesWellFormed | src/bibliotheque.py:102-104 | a successful return keeps the invariant: the returner was the single holder and now nobody holds the book |
| Library.ReturnUndoesBorrow | src/bibliotheque.py:70-108 | in a well-formed catalog, a return right after a successful borrow succeeds and restores all books and members, leaving one `emprunt` and one `retour` entry in the log |
| Library.UnavailableIffHeld | src/bibliotheque.py:80-81 | in a well-formed catalog a book is out exactly when some member holds its ISBN |
| Text.StripLeading | src/bibliotheque.py:141 | the result is the suffix left after dropping only whitespace, and it starts with a non-whitespace character |
| Text.StripTrailing | src/bibliotheque.py:141 | the result is the prefix left after dropping only whitespace, and it ends with a non-whitespace character |
| Text.StripRemovesTail | src/bibliotheque.py:141 | stripping a text with non-whitespace ends plus appended whitespace gives the text back |
| Text.Strip | src/bibliotheque.py:141 | `strip()` cuts only whitespace, from both ends, and what is left neither starts nor ends with whitespace |
| Text.Join | src/bibliotheque.py:131 | the join starts with the first part and puts the separator right after it; `Text.SplitJoin` shows splitting gives the parts back |
| Text.Split | src/bibliotheque.py:141 | `split` yields at least one part, no part holds the separator, and joining the parts gives the input back |
| Text.SplitJoin | src/bibliotheque.py:153 | splitting a join of at least one separator-free part gives the parts back |
| Text.Concat | src/bibliotheque.py:122-124 | the written text starts with the first line written; `Text.LinesConcat` shows that reading it back gives the lines |
| Text.ConcatCovers | src/bibliotheque.py:122-124 | every character of every line written is in the file text |
| Text.Lines | src/bibliotheque.py:140 | the lines are non-empty, each ends at its first line break (the last may lack one), and together they are the whole text |
| Text.LinesConcat | src/bibliotheque.py:121-124 | complete lines written one after another are read back as the same lines |
| Text.Translate | src/bibliotheque.py:139 | the text read in text mode holds no carriage return |
| Text.TranslateCrLf | src/bibliotheque.py:139 | a `"\r\n"` pair is read as one line break and the text before it is kept |
| Text.TranslateLoneCr | src/bibliotheque.py:139 | a carriage return not followed by a line break is read as one line break and the text before it is kept |
| Text.TranslateWithoutCr | src/bibliotheque.py:139 | a text without carriage returns is read unchanged |
| Text.ReadLines | src/bibliotheque.py:140 | the lines read put together give the stored text with its line ends translated, and none holds a carriage return |
| Text.ReadBackLines | src/bibliotheque.py:121-140 | writing complete lines and reading the file gives the same lines |
| Text.SplitStrippedLine | src/bibliotheque.py:141 | a record written as clean fields joined by a separator plus a line break is one complete line, and strip-then-split gives the fields back |
| Storage.BoolText | src/bibliotheque.py:123 | the availability is written as `True` exactly when the book is on the shelf, in letters only |
| Storage.BookLine | src/bibliotheque.py:123 | the line ends with a line break; when no text field holds `;`, cutting the rest at `;` gives the six fields, availability written as `True`/`False` |
| Storage.ParseBookLine | src/bibliotheque.py:141-143 | a line is refused exactly when its stripped text does not cut into six `;`-fields (the unpacking raises); otherwise the book carries the first five fields and is on the shelf exactly when the sixth is `True` |
| Storage.MemberLine | src/bibliotheque.py:131-132 | the line ends with a line break; when no field holds `;`, cutting the rest at `;` gives the id, the name and the comma-joined borrowed list |
| Storage.ParseMemberLine | src/bibliotheque.py:150-155 | a line is refused exactly when its stripped text has fewer than two `;`-fields (`parts[1]` raises); otherwise id and name are the first two fields, the borrowed list is the third field cut at commas (no ISBN holds a comma, and joined by commas they give the field back), and a missing or empty third field gives no book |
| Storage.LineWithoutSeparatorRefused | src/bibliotheque.py:141-152 | a line with no `;` after stripping is refused by both parsers |
| Storage.TwoFieldMemberLine | src/bibliotheque.py:150-155 | a member line with only id and name is read as a member holding no book |
| Storage.BookLineRoundTrip | src/bibliotheque.py:123-144 | a savable book's line is one complete line, and parsing it gives the same book, availability included (`True`/`False` text to flag) |
| Storage.JoinedLoansEmpty | src/bibliotheque.py:153 | the comma-joined borrowed list is empty exactly when no book is borrowed |
| Storage.MemberLineRoundTrip | src/bibliotheque.py:131-155 | a savable member's line is one complete line, and parsing it gives the same member and borrowed list; an empty list comes back from the empty third field |
| Storage.RenderAll | src/bibliotheque.py:122-124 | one line per listed key, in iteration order, each the rendering of that key's record |
| Storage.SaveBooks | src/bibliotheque.py:121-124 | for savable books, the file text reads back as one line per listed key, in order, each that book's line |
| Storage.SaveMembers | src/bibliotheque.py:129-133 | for savable members, the file text reads back as one line per listed key, in order, each that member's line |
| Storage.LoadLines | src/bibliotheque.py:139-144 | loading never drops a key of the map it starts from; without error every line parsed; an error names the first line that did not parse |
| Storage.LoadKeepsUntouched | src/bibliotheque.py:144 | loading is additive: an entry whose key no line carries keeps its old value |
| Storage.LoadLastWins | src/bibliotheque.py:144 | for a repeated key, the entry from the last line carrying it is what the map holds |
| Storage.LoadAddsOnlyReadKeys | src/bibliotheque.py:140-144 | every key after loading was either there before or is the key of a line that parsed |
| Storage.LoadStopsAtError | src/bibliotheque.py:140-144 | after a malformed line the entries are exactly those the lines before it produce; later lines are never read |
| Storage.LoadRenderedLines | src/bibliotheque.py:121-144 | reading back the lines rendered for the listed keys adds exactly those entries to the starting map, with no error |
| Storage.LoadSavedBooks | src/bibliotheque.py:116-144 | reading back the book file written for every key gives the same book map |
| Storage.LoadSavedMembers | src/bibliotheque.py:128-156 | reading back the member file written for every key gives the same member map |
| Storage.SaveThenLoad | src/bibliotheque.py:116-156 | saving a catalog whose records sit under their own keys and are savable, in any key order, and loading into an empty catalog gives the same books and members, with no error |
| Storage.Load | src/bibliotheque.py:136-156 | the book map is the book lines loaded into the old one, and a bad book line is reported with its index and leaves the members unread; otherwise the member map is the member lines loaded into the old one, and a bad member line is reported with its index; the log and every existing key are kept |
| Scenarios.BorrowTwice | src/bibliotheque.py:70-89 | Dune borrowed by Alice is out and logged once; a second borrow is refused as out |
| Scenarios.UnknownBookFirst | src/bibliotheque.py:70-75 | with both book and member unknown, the book error is reported |
| Scenarios.FourthBorrowExceedsQuota | src/bibliotheque.py:83-84 | after three successful borrows a fourth is refused for quota |
| Scenarios.ReturnNotBorrowed | src/bibliotheque.py:102-108 | returning a book the member never borrowed is refused |

## Left out

- Printing in every method, `lister_livres` and the `__str__` methods: output formatting only.
- `enregistrer_historique`: the CSV append and the `datetime.now()` timestamp
  are left out. The log is an abstract sequence of (action, member, ISBN)
  entries in the catalog value.
- File handling in `sauvegarder_donnees` and `charger_donnees`: the `open`
  calls, the directory resolution and the `exists` checks are left out. A
  missing file is modelled as an empty text, since both yield no line. The
  source saves under the module's `../data` directory but loads from `data/`
  relative to the working directory. The model treats both as the same file.
- UTF-8 encoding and decoding: strings are sequences of characters, and
  decoding failures are not modelled.
- Line separator on write: `"\n"` is written as is, which is the POSIX
  behaviour. On Windows it would be written as `"\r\n"`, which universal
  newlines would translate back.
- Exceptions in loading: a malformed line stops the load at that line and keeps
  the entries stored before it (`Storage.LoadStopsAtError`), and the model
  reports its index. The Python
  exception kind (`ValueError` or `IndexError`) is not kept.
- Library.AddBookPreservesWellFormed: assumes the added book is available.
  Adding a book object marked out would break the invariant. Every caller
  passes a freshly constructed book.
- Library.RegisterMemberPreservesWellFormed: assumes the new member holds no
  book. Every caller passes a freshly constructed member.
- The GUI (`src/interface.py`), including its delete and edit handlers. These
  change the maps directly and do not clean borrowed references.
- The console menu (`src/main.py`): input and output only.
- The charts (`src/visualisations.py`): reporting only, with no rules.
- `src/exceptions.py`: only its four classes appear, as the constructors of
  `Library.BorrowError`.

=== FILE: entities.dfy ===
/** The two record types of the catalog: a book (`Livre`) and a member
    (`Membre`) with the member's own borrowed-list helpers. */
module Entities {

  /** A book: its ISBN (the catalog key), title, author, publication year kept
      as text, genre, and whether it is on the shelf. */
  datatype Book = Book(isbn: string, title: string, author: string, year: string, genre: string, available: bool)

  /** A member: identifier (the catalog key), name, and the ISBNs of the books
      they hold, in the order they were borrowed. */
  datatype Member = Member(id: string, name: string, borrowed: seq<string>)

  /** `Livre(isbn, titre, auteur, annee, genre)`: a new book is on the shelf. */
  function NewBook(isbn: string, title: string, author: string, year: string, genre: string): (b: Book)
    ensures b.available
    ensures b.isbn == isbn && b.title == title && b.author == author && b.year == year && b.genre == genre
  {
    Book(isbn, title, author, year, genre, true)
  }

  /** `Membre(id_membre, nom)`: a new member holds no book. */
  function NewMember(id: string, name: string): (m: Member)
    ensures m.borrowed == []
    ensures m.id == id && m.name == name
  {
    Member(id, name, [])
  }

  /** No ISBN occurs twice in the list. */
  predicate NoDuplicates(s: seq<string>) {
    forall i, j :: 0 <= i < j < |s| ==> s[i] != s[j]
  }

  /** Python's `list.remove(x)` on a list that holds `x`, and the identity
      otherwise: one occurrence of `x` fewer, every other element kept. */
  function RemoveFirst(s: seq<string>, x: string): (r: seq<string>)
    ensures x !in s ==> r == s
    ensures x in s ==> |r| == |s| - 1 && multiset(r) == multiset(s) - multiset{x}
    ensures forall y :: y != x ==> (y in r <==> y in s)
  {
    if s == [] then []
    else if s[0] == x then
      assert s == [s[0]] + s[1..];
      s[1..]
    else
      var r := RemoveFirst(s[1..], x);
      assert s == [s[0]] + s[1..];
      assert multiset([s[0]] + r) == multiset{s[0]} + multiset(r);
      [s[0]] + r
  }

  /** The occurrence `list.remove` takes out is the first one, and the order
      of the rest is kept. */
  lemma {:induction false} RemoveFirstIsFirstOccurrence(s: seq<string>, x: string, i: nat)
    requires i < |s| && s[i] == x
    requires forall k :: 0 <= k < i ==> s[k] != x
    ensures RemoveFirst(s, x) == s[..i] + s[i + 1..]
  {
    if i == 0 {
      assert s[..0] + s[1..] == s[1..];
    } else {
      PrefixShift(s, x, i);
      RemoveFirstIsFirstOccurrence(s[1..], x, i - 1);
      RemoveFirstSkipsHead(s, x);
      ConsSlices(s, i);
    }
  }

  lemma RemoveFirstSkipsHead(s: seq<string>, x: string)
    requires s != [] && s[0] != x
    ensures RemoveFirst(s, x) == [s[0]] + RemoveFirst(s[1..], x)
  {
  }

  lemma ConsSlices(s: seq<string>, i: nat)
    requires 0 < i < |s|
    ensures [s[0]] + (s[1..][..i - 1] + s[1..][i..]) == s[..i] + s[i + 1..]
  {
    assert s[..i] == [s[0]] + s[1..][..i - 1];
    assert s[1..][i..] == s[i + 1..];
  }

  lemma PrefixShift(s: seq<string>, x: string, i: nat)
    requires 0 < i < |s|
    requires forall k :: 0 <= k < i ==> s[k] != x
    ensures forall k :: 0 <= k < i - 1 ==> s[1..][k] != x
  {
    forall k | 0 <= k < i - 1 ensures s[1..][k] != x {
      assert s[1..][k] == s[k + 1];
    }
  }

  /** Removing from a list without duplicates leaves none of `x` and no
      duplicates. */
  lemma {:induction false} RemoveFirstNoDuplicates(s: seq<string>, x: string)
    requires NoDuplicates(s)
    ensures NoDuplicates(RemoveFirst(s, x)) && x !in RemoveFirst(s, x)
  {
    if s != [] && s[0] != x {
      assert NoDuplicates(s[1..]) by {
        forall i, j | 0 <= i < j < |s[1..]| ensures s[1..][i] != s[1..][j] {
          assert s[1..][i] == s[i + 1] && s[1..][j] == s[j + 1];
        }
      }
      RemoveFirstNoDuplicates(s[1..], x);
      assert s[0] !in s[1..];
    } else if s != [] {
      assert s[0] !in s[1..];
    }
  }

  /** `Membre.emprunter_livre(isbn)`: appends the ISBN unless the member
      already holds it. */
  function AddLoan(m: Member, isbn: string): (m': Member)
    ensures m'.id == m.id && m'.name == m.name
    ensures isbn in m'.borrowed
    ensures isbn in m.borrowed ==> m' == m
    ensures isbn !in m.borrowed ==> m'.borrowed == m.borrowed + [isbn]
    ensures NoDuplicates(m.borrowed) ==> NoDuplicates(m'.borrowed)
  {
    if isbn !in m.borrowed then m.(borrowed := m.borrowed + [isbn]) else m
  }

  /** `Membre.rendre_livre(isbn)`: removes the ISBN when the member holds it,
      and changes nothing otherwise. */
  function RemoveLoan(m: Member, isbn: string): (m': Member)
    ensures m'.id == m.id && m'.name == m.name
    ensures isbn !in m.borrowed ==> m' == m
    ensures isbn in m.borrowed ==> |m'.borrowed| == |m.borrowed| - 1
    ensures forall y :: y != isbn ==> (y in m'.borrowed <==> y in m.borrowed)
    ensures NoDuplicates(m.borrowed) ==> NoDuplicates(m'.borrowed) && isbn !in m'.borrowed
  {
    if isbn in m.borrowed then
      RemoveFirstNoDuplicatesIfAny(m.borrowed, isbn);
      m.(borrowed := RemoveFirst(m.borrowed, isbn))
    else m
  }

  lemma RemoveFirstNoDuplicatesIfAny(s: seq<string>, x: string)
    ensures NoDuplicates(s) ==> NoDuplicates(RemoveFirst(s, x)) && x !in RemoveFirst(s, x)
  {
    if NoDuplicates(s) {
      RemoveFirstNoDuplicates(s, x);
    }
  }

  /** Returning a book just borrowed gives the member back as before. */
  lemma {:induction false} RemoveLoanUndoesAddLoan(m: Member, isbn: string)
    requires isbn !in m.borrowed
    ensures RemoveLoan(AddLoan(m, isbn), isbn) == m
  {
    var s := m.borrowed + [isbn];
    assert forall k :: 0 <= k < |m.borrowed| ==> s[k] == m.borrowed[k];
    RemoveFirstIsFirstOccurrence(s, isbn, |m.borrowed|);
    assert s[..|m.borrowed|] == m.borrowed;
  }
}

=== FILE: library.dfy ===
/** The catalog (`Bibliotheque`): books keyed by ISBN, members keyed by
    identifier, the activity log, and the four operations that change them. */
module Library {
  import opened Wrappers
  import opened Entities

  /** Most books a member may hold at once. */
  const Quota: nat := 3

  /** The action column of the activity log, written as its literal text. */
  datatype Action = Emprunt | Retour

  /** One activity-log row without its timestamp. */
  datatype LogEntry = LogEntry(action: Action, memberId: string, isbn: string)

  datatype Catalog = Catalog(books: map<string, Book>, members: map<string, Member>, log: seq<LogEntry>)

  /** The four exceptions the borrow path raises. */
  datatype BorrowError = LivreInexistant | MembreInexistant | LivreIndisponible | QuotaEmpruntDepasse

  /** The three messages the return path prints instead of raising. The
      source defines no exception class for them, so unlike `BorrowError`
      there is no source name to reuse; each kind is named after the
      message it stands for. */
  datatype ReturnRefusal = UnknownBook | UnknownMember | NotBorrowedByMember

  /** `Bibliotheque()`: no book, no member, nothing logged, which satisfies
      the catalog invariant. */
  function Empty(): (c: Catalog)
    ensures |c.books| == 0 && |c.members| == 0 && |c.log| == 0
    ensures WellFormed(c)
  {
    Catalog(map[], map[], [])
  }

  /** `ajouter_livre`: a book whose ISBN is already a key is refused and the
      catalog is unchanged; otherwise exactly that entry is added. */
  function AddBook(c: Catalog, b: Book): (c': Catalog)
    ensures b.isbn in c.books ==> c' == c
    ensures b.isbn !in c.books ==>
      && c'.books.Keys == c.books.Keys + {b.isbn}
      && c'.books[b.isbn] == b
      && (forall k :: k in c.books ==> c'.books[k] == c.books[k])
    ensures c'.members == c.members && c'.log == c.log
  {
    if b.isbn in c.books then c else c.(books := c.books[b.isbn := b])
  }

  /** `inscrire_membre`: the same duplicate-key policy on the member map. */
  function RegisterMember(c: Catalog, m: Member): (c': Catalog)
    ensures m.id in c.members ==> c' == c
    ensures m.id !in c.members ==>
      && c'.members.Keys == c.members.Keys + {m.id}
      && c'.members[m.id] == m
      && (forall k :: k in c.members ==> c'.members[k] == c.members[k])
    ensures c'.books == c.books && c'.log == c.log
  {
    if m.id in c.members then c else c.(members := c.members[m.id := m])
  }

  /** `emprunter_livre(isbn, id_membre)`. The checks run in a fixed order:
      unknown book, unknown member, book out, quota reached. An error carries
      no catalog: the caller's catalog is the state after a refused borrow,
      as the source raises before assigning anything. On success the book
      is out, the member's list gained the ISBN, one `emprunt` row is logged,
      and every other book and member is as before. */
  function Borrow(c: Catalog, isbn: string, id: string): (r: Result<Catalog, BorrowError>)
    ensures isbn !in c.books ==> r == Err(LivreInexistant)
    ensures isbn in c.books && id !in c.members ==> r == Err(MembreInexistant)
    ensures isbn in c.books && id in c.members && !c.books[isbn].available ==> r == Err(LivreIndisponible)
    ensures (isbn in c.books && id in c.members && c.books[isbn].available
             && |c.members[id].borrowed| >= Quota) ==> r == Err(QuotaEmpruntDepasse)
    ensures r.Ok? <==> isbn in c.books && id in c.members && c.books[isbn].available
                       && |c.members[id].borrowed| < Quota
    ensures r.Ok? ==>
      var c' := r.value;
      && c'.books.Keys == c.books.Keys
      && c'.books[isbn] == c.books[isbn].(available := false)
      && (forall k :: k in c.books && k != isbn ==> c'.books[k] == c.books[k])
      && c'.members.Keys == c.members.Keys
      && c'.members[id] == AddLoan(c.members[id], isbn)
      && isbn in c'.members[id].borrowed
      && (forall k :: k in c.members && k != id ==> c'.members[k] == c.members[k])
      && c'.log == c.log + [LogEntry(Emprunt, id, isbn)]
  {
    if isbn !in c.books then Err(LivreInexistant)
    else if id !in c.members then Err(MembreInexistant)
    else
      var book := c.books[isbn];
      var member := c.members[id];
      if !book.available then Err(LivreIndisponible)
      else if |member.borrowed| >= Quota then Err(QuotaEmpruntDepasse)
      else
        Ok(Catalog(
          c.books[isbn := book.(available := false)],
          c.members[id := AddLoan(member, isbn)],
          c.log + [LogEntry(Emprunt, id, isbn)]))
  }

  /** `rendre_livre(isbn, id_membre)`. An unknown book, an unknown member, or
      a book the member does not hold is refused and nothing changes. Otherwise
      the book is back on the shelf, the ISBN leaves the member's list, one
      `retour` row is logged, and every other book and member is as before.
      The book's flag is not consulted. */
  function Return(c: Catalog, isbn: string, id: string): (r: Result<Catalog, ReturnRefusal>)
    ensures isbn !in c.books ==> r == Err(UnknownBook)
    ensures isbn in c.books && id !in c.members ==> r == Err(UnknownMember)
    ensures isbn in c.books && id in c.members && isbn !in c.members[id].borrowed ==> r == Err(NotBorrowedByMember)
    ensures r.Ok? <==> isbn in c.books && id in c.members && isbn in c.members[id].borrowed
    ensures r.Ok? ==>
      var c' := r.value;
      && c'.books.Keys == c.books.Keys
      && c'.books[isbn] == c.books[isbn].(available := true)
      && (forall k :: k in c.books && k != isbn ==> c'.books[k] == c.books[k])
      && c'.members.Keys == c.members.Keys
      && c'.members[id] == RemoveLoan(c.members[id], isbn)
      && |c'.members[id].borrowed| == |c.members[id].borrowed| - 1
      && (forall k :: k in c.members && k != id ==> c'.members[k] == c.members[k])
      && c'.log == c.log + [LogEntry(Retour, id, isbn)]
  {
    if isbn !in c.books then Err(UnknownBook)
    else if id !in c.members then Err(UnknownMember)
    else
      var book := c.books[isbn];
      var member := c.members[id];
      if isbn in member.borrowed then
        Ok(Catalog(
          c.books[isbn := book.(available := true)],
          c.members[id := RemoveLoan(member, isbn)],
          c.log + [LogEntry(Retour, id, isbn)]))
      else Err(NotBorrowedByMember)
  }

  /** The members whose borrowed list holds `isbn`. */
  ghost function Holders(members: map<string, Member>, isbn: string): set<string> {
    set id | id in members && isbn in members[id].borrowed
  }

  /** The catalog invariant:
      - every book is stored under its own ISBN and every member under its
        own identifier;
      - every borrowed list has at most `Quota` entries and no duplicate;
      - every borrowed ISBN names a book of the catalog;
      - a book is out exactly when one member holds it, and on the shelf
        exactly when nobody does. */
  ghost predicate WellFormed(c: Catalog) {
    && (forall k :: k in c.books ==> c.books[k].isbn == k)
    && (forall k :: k in c.members ==> c.members[k].id == k)
    && (forall k :: k in c.members ==>
          |c.members[k].borrowed| <= Quota && NoDuplicates(c.members[k].borrowed))
    && (forall k, x :: k in c.members && x in c.members[k].borrowed ==> x in c.books)
    && (forall x :: x in c.books ==>
          |Holders(c.members, x)| == if c.books[x].available then 0 else 1)
  }

  /** A one-element set is the singleton of any of its elements. */
  lemma SingletonOf(s: set<string>, x: string)
    requires |s| == 1 && x in s
    ensures s == {x}
  {
    assert |s - {x}| == |s| - |{x}| == 0;
  }

  lemma EmptyIsWellFormed()
    ensures WellFormed(Empty())
  {
  }

  /** Adding a new book that is on the shelf keeps the invariant: nobody can
      hold an ISBN that was not yet a key. */
  lemma AddBookPreservesWellFormed(c: Catalog, b: Book)
    requires WellFormed(c)
    requires b.available
    ensures WellFormed(AddBook(c, b))
  {
    var c' := AddBook(c, b);
    if b.isbn !in c.books {
      assert Holders(c'.members, b.isbn) == {};
    }
  }

  /** Registering a new member who holds nothing keeps the invariant. */
  lemma RegisterMemberPreservesWellFormed(c: Catalog, m: Member)
    requires WellFormed(c)
    requires m.borrowed == []
    ensures WellFormed(RegisterMember(c, m))
  {
    var c' := RegisterMember(c, m);
    if m.id !in c.members {
      forall x | x in c'.books ensures Holders(c'.members, x) == Holders(c.members, x) {
      }
    }
  }

  /** A successful borrow keeps the invariant: the book had no holder, now
      has exactly the borrower, and the quota check came before the append. */
  lemma BorrowPreservesWellFormed(c: Catalog, isbn: string, id: string)
    requires WellFormed(c)
    requires Borrow(c, isbn, id).Ok?
    ensures WellFormed(Borrow(c, isbn, id).value)
  {
    var c' := Borrow(c, isbn, id).value;
    var m := c.members[id];
    assert Holders(c.members, isbn) == {};
    assert id !in Holders(c.members, isbn);
    assert isbn !in m.borrowed;
    assert c'.members[id].borrowed == m.borrowed + [isbn];
    forall x | x in c'.books
      ensures |Holders(c'.members, x)| == if c'.books[x].available then 0 else 1
    {
      if x == isbn {
        assert Holders(c'.members, x) == {id};
      } else {
        assert Holders(c'.members, x) == Holders(c.members, x);
      }
    }
  }

  /** A successful return keeps the invariant: the returner was the one
      holder of the book, and now nobody holds it. */
  lemma ReturnPreservesWellFormed(c: Catalog, isbn: string, id: string)
    requires WellFormed(c)
    requires Return(c, isbn, id).Ok?
    ensures WellFormed(Return(c, isbn, id).value)
  {
    var c' := Return(c, isbn, id).value;
    var m := c.members[id];
    assert id in Holders(c.members, isbn);
    SingletonOf(Holders(c.members, isbn), id);
    forall x | x in c'.books
      ensures |Holders(c'.members, x)| == if c'.books[x].available then 0 else 1
    {
      if x == isbn {
        assert isbn !in c'.members[id].borrowed;
        forall j | j in c'.members && j != id ensures isbn !in c'.members[j].borrowed {
          assert j !in Holders(c.members, isbn);
        }
        assert Holders(c'.members, x) == {};
      } else {
        assert Holders(c'.members, x) == Holders(c.members, x);
      }
    }
  }

  /** Returning a book right after borrowing it restores every book and every
      member, and leaves one `emprunt` and one `retour` row in the log. */
  lemma ReturnUndoesBorrow(c: Catalog, isbn: string, id: string)
    requires WellFormed(c)
    requires Borrow(c, isbn, id).Ok?
    ensures var c1 := Borrow(c, isbn, id).value;
      && Return(c1, isbn, id).Ok?
      && Return(c1, isbn, id).value.books == c.books
      && Return(c1, isbn, id).value.members == c.members
      && Return(c1, isbn, id).value.log == c.log + [LogEntry(Emprunt, id, isbn), LogEntry(Retour, id, isbn)]
  {
    var m := c.members[id];
    assert Holders(c.members, isbn) == {};
    assert id !in Holders(c.members, isbn);
    assert isbn !in m.borrowed;
    RemoveLoanUndoesAddLoan(m, isbn);
  }

  /** In a well-formed catalog a book is refused as out exactly when some
      member (possibly the borrower) holds it. */
  lemma UnavailableIffHeld(c: Catalog, isbn: string)
    requires WellFormed(c)
    requires isbn in c.books
    ensures !c.books[isbn].available <==> exists id :: id in c.members && isbn in c.members[id].borrowed
  {
    if !c.books[isbn].available {
      var id :| id in Holders(c.members, isbn);
    }
    if id :| id in c.members && isbn in c.members[id].borrowed {
      assert id in Holders(c.members, isbn);
    }
  }
}

=== FILE: scenarios.dfy ===
/** Worked examples of the catalog rules on concrete data. */
module Scenarios {
  import opened Wrappers
  import opened Entities
  import opened Library

  /** A catalog holding the book "001" (Dune) and the member "M1" (Alice). */
  function DuneAndAlice(): Catalog {
    RegisterMember(AddBook(Empty(), NewBook("001", "Dune", "Herbert", "1965", "SF")), NewMember("M1", "Alice"))
  }

  /** Borrowing Dune succeeds once, takes it off the shelf and logs one
      `emprunt` row; borrowing it again is refused as out. */
  lemma BorrowTwice()
    ensures Borrow(DuneAndAlice(), "001", "M1").Ok?
    ensures var c := Borrow(DuneAndAlice(), "001", "M1").value;
      && !c.books["001"].available
      && c.log == [LogEntry(Emprunt, "M1", "001")]
      && Borrow(c, "001", "M1") == Err(LivreIndisponible)
  {
  }

  /** An unknown book is reported before an unknown member. */
  lemma UnknownBookFirst()
    ensures Borrow(Empty(), "001", "M1") == Err(LivreInexistant)
  {
  }

  /** Four books on the shelf and the member "M1". */
  function FourBooksAndAlice(): Catalog {
    Catalog(
      map["1" := NewBook("1", "A", "", "", ""), "2" := NewBook("2", "B", "", "", ""),
          "3" := NewBook("3", "C", "", "", ""), "4" := NewBook("4", "D", "", "", "")],
      map["M1" := NewMember("M1", "Alice")],
      [])
  }

  /** A member who borrowed three books is refused a fourth. */
  lemma FourthBorrowExceedsQuota()
    ensures Borrow(FourBooksAndAlice(), "1", "M1").Ok?
    ensures var c1 := Borrow(FourBooksAndAlice(), "1", "M1").value;
      Borrow(c1, "2", "M1").Ok? &&
      var c2 := Borrow(c1, "2", "M1").value;
      Borrow(c2, "3", "M1").Ok? &&
      var c3 := Borrow(c2, "3", "M1").value;
      Borrow(c3, "4", "M1") == Err(QuotaEmpruntDepasse)
  {
    var c0 := FourBooksAndAlice();
    assert "1" in c0.books && c0.books["1"].available && c0.members["M1"].borrowed == [];
    var c1 := Borrow(c0, "1", "M1").value;
    assert c1.members["M1"].borrowed == ["1"];
    assert "2" in c1.books && c1.books["2"] == c0.books["2"];
    var c2 := Borrow(c1, "2", "M1").value;
    assert c2.members["M1"].borrowed == ["1", "2"];
    assert "3" in c2.books && c2.books["3"] == c0.books["3"];
    var c3 := Borrow(c2, "3", "M1").value;
    assert c3.members["M1"].borrowed == ["1", "2", "3"];
    assert "4" in c3.books && c3.books["4"] == c0.books["4"];
  }

  /** Returning a book the member never borrowed is refused. */
  lemma ReturnNotBorrowed()
    ensures Return(DuneAndAlice(), "001", "M1") == Err(NotBorrowedByMember)
  {
  }
}

=== FILE: storage.dfy ===
/** The flat-file formats of `sauvegarder_donnees` and `charger_donnees`:
    one `isbn;titre;auteur;annee;genre;True|False` line per book and one
    `id;nom;a,b,c` line per member, written as whole-file text and read
    back line by line into the catalog maps. */
module Storage {
  import opened Wrappers
  import opened Text
  import opened Entities
  import opened Library

  /** Python's `str(b)` for a boolean: `True` exactly for true, and in
      letters only. */
  function BoolText(b: bool): (r: string)
    ensures r == "True" <==> b
    ensures |r| >= 4 && forall k :: 0 <= k < |r| ==> 'A' <= r[k] <= 'z'
  {
    if b then "True" else "False"
  }

  /** The six `;`-separated fields of a saved book line. */
  function BookFields(b: Book): (fields: seq<string>)
    ensures |fields| == 6 && (fields[5] == "True" <==> b.available)
  {
    [b.isbn, b.title, b.author, b.year, b.genre, BoolText(b.available)]
  }

  /** No field of a book holds `c` when its text fields do not and `c` is
      not a letter (`True` and `False` are letters only). */
  lemma BookFieldsAvoid(b: Book, c: char)
    requires c !in b.isbn + b.title + b.author + b.year + b.genre
    requires !('A' <= c <= 'z')
    ensures forall i :: 0 <= i < |BookFields(b)| ==> c !in BookFields(b)[i]
  {
    var t := BoolText(b.available);
    assert forall k :: 0 <= k < |t| ==> 'A' <= t[k] <= 'z';
    assert c !in t;
  }

  /** The line written for one book: its six fields separated by `;`, then
      a line break. When no text field holds `;`, cutting the line at `;`
      gives the six fields back. */
  function BookLine(b: Book): (line: string)
    ensures |line| >= 1 && line[|line| - 1] == '\n'
    ensures ';' !in b.isbn + b.title + b.author + b.year + b.genre ==>
      Split(line[..|line| - 1], ';') == BookFields(b)
  {
    var x := Join(BookFields(b), ';');
    BookFieldsSplit(b);
    assert (x + "\n")[..|x|] == x;
    x + "\n"
  }

  lemma BookFieldsSplit(b: Book)
    ensures ';' !in b.isbn + b.title + b.author + b.year + b.genre ==>
      Split(Join(BookFields(b), ';'), ';') == BookFields(b)
  {
    if ';' !in b.isbn + b.title + b.author + b.year + b.genre {
      BookFieldsAvoid(b, ';');
      SplitJoin(BookFields(b), ';');
    }
  }

  /** Reading one book line: the stripped line must split into exactly six
      fields (otherwise the tuple unpacking raises), and the book is on the
      shelf exactly when the last field is the text `True`. */
  function ParseBookLine(line: string): (r: Option<Book>)
    ensures r.Some? <==> |Split(Strip(line), ';')| == 6
    ensures r.Some? ==>
      var parts := Split(Strip(line), ';');
      && BookFields(r.value)[..5] == parts[..5]
      && (r.value.available <==> parts[5] == "True")
  {
    var parts := Split(Strip(line), ';');
    if |parts| != 6 then None
    else Some(NewBook(parts[0], parts[1], parts[2], parts[3], parts[4]).(available := parts[5] == "True"))
  }

  /** The line written for one member: identifier, name and the borrowed
      ISBNs joined by commas. */
  function MemberLine(m: Member): (line: string)
    ensures |line| >= 1 && line[|line| - 1] == '\n'
    ensures ';' !in m.id + m.name && (forall i :: 0 <= i < |m.borrowed| ==> ';' !in m.borrowed[i]) ==>
      Split(line[..|line| - 1], ';') == [m.id, m.name, Join(m.borrowed, ',')]
  {
    var x := Join([m.id, m.name, Join(m.borrowed, ',')], ';');
    MemberFieldsSplit(m);
    assert (x + "\n")[..|x|] == x;
    x + "\n"
  }

  lemma MemberFieldsSplit(m: Member)
    ensures ';' !in m.id + m.name && (forall i :: 0 <= i < |m.borrowed| ==> ';' !in m.borrowed[i]) ==>
      var fields := [m.id, m.name, Join(m.borrowed, ',')];
      Split(Join(fields, ';'), ';') == fields
  {
    var fields := [m.id, m.name, Join(m.borrowed, ',')];
    if ';' !in m.id + m.name && (forall i :: 0 <= i < |m.borrowed| ==> ';' !in m.borrowed[i]) {
      JoinAvoids(m.borrowed, ',', ';');
      assert forall i :: 0 <= i < 3 ==> ';' !in fields[i];
      SplitJoin(fields, ';');
    }
  }

  /** Reading one member line: fewer than two fields raises (`parts[1]`),
      fields after the third are ignored, and a missing or empty third field
      means no borrowed book. */
  function ParseMemberLine(line: string): (r: Option<Member>)
    ensures r.Some? <==> |Split(Strip(line), ';')| >= 2
    ensures r.Some? ==>
      var parts := Split(Strip(line), ';');
      && r.value.id == parts[0] && r.value.name == parts[1]
      && Join(r.value.borrowed, ',') == (if |parts| > 2 then parts[2] else [])
      && (forall i :: 0 <= i < |r.value.borrowed| ==> ',' !in r.value.borrowed[i])
      && ((|parts| == 2 || parts[2] == []) ==> r.value.borrowed == [])
  {
    var parts := Split(Strip(line), ';');
    if |parts| < 2 then None
    else
      var borrowed := if |parts| > 2 && parts[2] != [] then Split(parts[2], ',') else [];
      Some(NewMember(parts[0], parts[1]).(borrowed := borrowed))
  }

  /** A line without any `;` after stripping is refused by both parsers: the
      six-way unpacking raises `ValueError`, and `parts[1]` raises
      `IndexError`. */
  lemma LineWithoutSeparatorRefused(line: string)
    requires ';' !in Strip(line)
    ensures ParseBookLine(line) == None && ParseMemberLine(line) == None
  {
    SplitWithoutSep(Strip(line), ';');
  }

  /** A member line with only two fields is read as a member who holds no
      book. */
  lemma TwoFieldMemberLine(id: string, name: string)
    requires CleanField(id) && CleanField(name)
    requires LeadingKept(id) && TrailingKept(name)
    ensures ParseMemberLine(id + ";" + name + "\n") == Some(NewMember(id, name))
  {
    assert Join([id, name], ';') == id + ";" + name;
    SplitStrippedLine([id, name], ';');
  }

  function BookKey(b: Book): (k: string) { b.isbn }

  function MemberKey(m: Member): (k: string) { m.id }

  /** A text field that survives a saved line: no field separator and no
      line break. */
  predicate CleanField(s: string) {
    ';' !in s && '\n' !in s && '\r' !in s
  }

  /** The conditions under which a book comes back from its line unchanged:
      clean fields, and an ISBN that `strip()` cannot shorten at the start
      (the line always ends with `True` or `False`). */
  predicate BookSavable(b: Book) {
    && CleanField(b.isbn) && CleanField(b.title) && CleanField(b.author)
    && CleanField(b.year) && CleanField(b.genre)
    && LeadingKept(b.isbn)
  }

  /** The conditions under which a member comes back from its line unchanged:
      clean fields, ISBNs without commas, not the single empty ISBN (which is
      written as an empty field), and ends that `strip()` cannot shorten. */
  predicate MemberSavable(m: Member) {
    && CleanField(m.id) && CleanField(m.name)
    && (forall i :: 0 <= i < |m.borrowed| ==> CleanField(m.borrowed[i]) && ',' !in m.borrowed[i])
    && m.borrowed != [[]]
    && LeadingKept(m.id)
    && (m.borrowed == [] || TrailingKept(m.borrowed[|m.borrowed| - 1]))
  }

  /** Parsing the line written for a savable book gives the same book back,
      availability included. */
  lemma BookLineRoundTrip(b: Book)
    requires BookSavable(b)
    ensures IsLine(BookLine(b))
    ensures ParseBookLine(BookLine(b)) == Some(b)
  {
    SavedBookLine(b);
    var parts := Split(Strip(BookLine(b)), ';');
    assert ParseBookLine(BookLine(b)) == Some(NewBook(parts[0], parts[1], parts[2], parts[3], parts[4]).(available := b.available));
  }

  lemma SavedBookLine(b: Book)
    requires BookSavable(b)
    ensures IsLine(BookLine(b))
    ensures Split(Strip(BookLine(b)), ';') == BookFields(b)
  {
    BookFieldsAvoid(b, ';');
    BookFieldsAvoid(b, '\n');
    BookFieldsAvoid(b, '\r');
    SplitStrippedLine(BookFields(b), ';');
    assert BookLine(b) == Join(BookFields(b), ';') + "\n";
  }

  /** The borrowed list joined by commas is empty only for no ISBN at all
      (given the list is not the single empty ISBN). */
  lemma JoinedLoansEmpty(borrowed: seq<string>)
    requires borrowed != [[]]
    ensures Join(borrowed, ',') == [] <==> borrowed == []
  {
    if |borrowed| >= 2 {
      JoinEndsWithLast(borrowed, ',');
    }
  }

  /** The three fields of a savable member's line are clean, and the line's
      ends survive `strip()`. */
  lemma MemberFieldsClean(m: Member)
    requires MemberSavable(m)
    ensures var fields := [m.id, m.name, Join(m.borrowed, ',')];
      && (forall i :: 0 <= i < 3 ==> ';' !in fields[i] && '\n' !in fields[i] && '\r' !in fields[i])
      && LeadingKept(fields[0]) && TrailingKept(fields[2])
  {
    JoinAvoids(m.borrowed, ',', ';');
    JoinAvoids(m.borrowed, ',', '\n');
    JoinAvoids(m.borrowed, ',', '\r');
    if m.borrowed != [] {
      JoinTrailing(m.borrowed, ',');
    }
  }

  /** Parsing the line written for a savable member gives the same member
      back, borrowed list included; no borrowed book is written as an empty
      third field and read back as an empty list. */
  lemma MemberLineRoundTrip(m: Member)
    requires MemberSavable(m)
    ensures IsLine(MemberLine(m))
    ensures ParseMemberLine(MemberLine(m)) == Some(m)
  {
    var loans := Join(m.borrowed, ',');
    MemberFieldsClean(m);
    SplitStrippedLine([m.id, m.name, loans], ';');
    JoinedLoansEmpty(m.borrowed);
    if m.borrowed != [] {
      SplitJoin(m.borrowed, ',');
    }
  }

  /** The lines written for the entries listed in `order`, in that order (the
      dictionary's iteration order). */
  function RenderAll<T>(entries: map<string, T>, order: seq<string>, render: T -> string): (lines: seq<string>)
    requires forall i :: 0 <= i < |order| ==> order[i] in entries
    ensures |lines| == |order|
    ensures forall i :: 0 <= i < |order| ==> lines[i] == render(entries[order[i]])
  {
    if order == [] then [] else [render(entries[order[0]])] + RenderAll(entries, order[1..], render)
  }

  /** The text of `livres.txt` written by `sauvegarder_donnees`. */
  function SaveBooks(books: map<string, Book>, order: seq<string>): (text: string)
    requires forall i :: 0 <= i < |order| ==> order[i] in books
    ensures (forall i :: 0 <= i < |order| ==> BookSavable(books[order[i]])) ==>
      ReadLines(text) == RenderAll(books, order, BookLine)
  {
    SavedBooksReadBack(books, order);
    Concat(RenderAll(books, order, BookLine))
  }

  /** The text of `membres.txt` written by `sauvegarder_donnees`. */
  function SaveMembers(members: map<string, Member>, order: seq<string>): (text: string)
    requires forall i :: 0 <= i < |order| ==> order[i] in members
    ensures (forall i :: 0 <= i < |order| ==> MemberSavable(members[order[i]])) ==>
      ReadLines(text) == RenderAll(members, order, MemberLine)
  {
    SavedMembersReadBack(members, order);
    Concat(RenderAll(members, order, MemberLine))
  }

  lemma SavedBooksReadBack(books: map<string, Book>, order: seq<string>)
    requires forall i :: 0 <= i < |order| ==> order[i] in books
    ensures (forall i :: 0 <= i < |order| ==> BookSavable(books[order[i]])) ==>
      ReadLines(Concat(RenderAll(books, order, BookLine))) == RenderAll(books, order, BookLine)
  {
    var lines := RenderAll(books, order, BookLine);
    if forall i :: 0 <= i < |order| ==> BookSavable(books[order[i]]) {
      forall i | 0 <= i < |order| ensures IsLine(lines[i]) {
        BookLineRoundTrip(books[order[i]]);
      }
      ReadBackLines(lines);
    }
  }

  lemma SavedMembersReadBack(members: map<string, Member>, order: seq<string>)
    requires forall i :: 0 <= i < |order| ==> order[i] in members
    ensures (forall i :: 0 <= i < |order| ==> MemberSavable(members[order[i]])) ==>
      ReadLines(Concat(RenderAll(members, order, MemberLine))) == RenderAll(members, order, MemberLine)
  {
    var lines := RenderAll(members, order, MemberLine);
    if forall i :: 0 <= i < |order| ==> MemberSavable(members[order[i]]) {
      forall i | 0 <= i < |order| ensures IsLine(lines[i]) {
        MemberLineRoundTrip(members[order[i]]);
      }
      ReadBackLines(lines);
    }
  }

  /** The entries read so far, and the index of the line whose parse raised,
      if one did. */
  datatype Partial<T> = Partial(entries: map<string, T>, failedAt: Option<nat>)

  /** One loading loop of `charger_donnees`: each line is parsed and stored
      under its key, overwriting what the map held; the first line that
      does not parse stops the loop, keeping what was stored before it. */
  function LoadLines<T>(m: map<string, T>, lines: seq<string>, parse: string -> Option<T>, key: T -> string): (r: Partial<T>)
    ensures m.Keys <= r.entries.Keys
    ensures r.failedAt.None? ==> forall i :: 0 <= i < |lines| ==> parse(lines[i]).Some?
    ensures r.failedAt.Some? ==>
      && r.failedAt.value < |lines|
      && parse(lines[r.failedAt.value]).None?
      && forall i :: 0 <= i < r.failedAt.value ==> parse(lines[i]).Some?
    decreases |lines|
  {
    if lines == [] then Partial(m, None)
    else match parse(lines[0])
      case None => Partial(m, Some(0))
      case Some(x) =>
        var r := LoadLines(m[key(x) := x], lines[1..], parse, key);
        Partial(r.entries, if r.failedAt.Some? then Some(r.failedAt.value + 1) else None)
  }

  /** Loading is additive: an entry already in the map survives unless a
      line read carries its key. */
  lemma {:induction false} LoadKeepsUntouched<T>(m: map<string, T>, lines: seq<string>, parse: string -> Option<T>, key: T -> string, k: string)
    requires k in m
    requires forall i :: 0 <= i < |lines| && parse(lines[i]).Some? ==> key(parse(lines[i]).value) != k
    ensures LoadLines(m, lines, parse, key).entries[k] == m[k]
    decreases |lines|
  {
    if lines != [] && parse(lines[0]).Some? {
      var x := parse(lines[0]).value;
      assert key(x) != k;
      LoadKeepsUntouched(m[key(x) := x], lines[1..], parse, key, k);
    }
  }

  /** For a repeated key, the last line read wins. */
  lemma {:induction false} LoadLastWins<T>(m: map<string, T>, lines: seq<string>, parse: string -> Option<T>, key: T -> string, i: nat)
    requires forall j :: 0 <= j < |lines| ==> parse(lines[j]).Some?
    requires i < |lines|
    requires forall j :: i < j < |lines| ==> key(parse(lines[j]).value) != key(parse(lines[i]).value)
    ensures var x := parse(lines[i]).value;
      key(x) in LoadLines(m, lines, parse, key).entries && LoadLines(m, lines, parse, key).entries[key(x)] == x
    decreases |lines|
  {
    var y := parse(lines[0]).value;
    if i == 0 {
      LoadKeepsUntouched(m[key(y) := y], lines[1..], parse, key, key(y));
    } else {
      LoadLastWins(m[key(y) := y], lines[1..], parse, key, i - 1);
    }
  }

  /** Loading adds no key other than the keys of the lines read. */
  lemma {:induction false} LoadAddsOnlyReadKeys<T>(m: map<string, T>, lines: seq<string>, parse: string -> Option<T>, key: T -> string, k: string)
    requires k in LoadLines(m, lines, parse, key).entries
    ensures k in m || exists i :: 0 <= i < |lines| && parse(lines[i]).Some? && key(parse(lines[i]).value) == k
    decreases |lines|
  {
    if lines != [] && parse(lines[0]).Some? {
      var x := parse(lines[0]).value;
      LoadAddsOnlyReadKeys(m[key(x) := x], lines[1..], parse, key, k);
      if k !in m && k != key(x) {
        var i :| 0 <= i < |lines[1..]| && parse(lines[1..][i]).Some? && key(parse(lines[1..][i]).value) == k;
        assert lines[1..][i] == lines[i + 1];
      }
    }
  }

  /** A malformed line ends the load: the entries are those the lines before
      it produce, and the lines after it are never read. */
  lemma {:induction false} LoadStopsAtError<T>(m: map<string, T>, lines: seq<string>, parse: string -> Option<T>, key: T -> string)
    requires LoadLines(m, lines, parse, key).failedAt.Some?
    ensures var j := LoadLines(m, lines, parse, key).failedAt.value;
      LoadLines(m, lines, parse, key).entries == LoadLines(m, lines[..j], parse, key).entries
    decreases |lines|
  {
    var j := LoadLines(m, lines, parse, key).failedAt.value;
    if j == 0 {
      assert lines[..0] == [];
    } else {
      var x := parse(lines[0]).value;
      LoadStopsAtError(m[key(x) := x], lines[1..], parse, key);
      assert lines[..j][1..] == lines[1..][..j - 1];
    }
  }

  /** Reading back what was written for the entries in `order` adds exactly
      those entries to the map, when every entry's line is a complete line
      that parses back to the entry under its own key. */
  lemma {:induction false} LoadRenderedLines<T>(m: map<string, T>, entries: map<string, T>, order: seq<string>,
                                                render: T -> string, parse: string -> Option<T>, key: T -> string)
    requires forall i :: 0 <= i < |order| ==> order[i] in entries
    requires forall i :: 0 <= i < |order| ==>
      parse(render(entries[order[i]])) == Some(entries[order[i]]) && key(entries[order[i]]) == order[i]
    ensures LoadLines(m, RenderAll(entries, order, render), parse, key)
      == Partial(m + map k | k in entries && k in order :: entries[k], None)
    decreases |order|
  {
    var added := map k | k in entries && k in order :: entries[k];
    if order == [] {
      assert added == map[];
      assert m + added == m;
    } else {
      var k0 := order[0];
      var rest := map k | k in entries && k in order[1..] :: entries[k];
      assert RenderAll(entries, order, render)[1..] == RenderAll(entries, order[1..], render);
      LoadRenderedLines(m[k0 := entries[k0]], entries, order[1..], render, parse, key);
      UnionStep(m, entries, order, added, rest);
    }
  }

  lemma UnionStep<T>(m: map<string, T>, entries: map<string, T>, order: seq<string>,
                     added: map<string, T>, rest: map<string, T>)
    requires order != [] && order[0] in entries
    requires added == map k | k in entries && k in order :: entries[k]
    requires rest == map k | k in entries && k in order[1..] :: entries[k]
    ensures m[order[0] := entries[order[0]]] + rest == m + added
  {
    var k0 := order[0];
    var lhs := m[k0 := entries[k0]] + rest;
    var rhs := m + added;
    assert forall k :: k in order <==> k == k0 || k in order[1..] by {
      assert order == [k0] + order[1..];
    }
    assert lhs.Keys == rhs.Keys;
    forall k | k in lhs ensures lhs[k] == rhs[k] {
      if k in rest {
        assert k in added;
      } else if k == k0 {
        assert k in added;
      }
    }
  }

  /** `sauvegarder_donnees` then `charger_donnees` into an empty catalog:
      a catalog whose records sit under their own keys and are savable,
      written in any order that lists every key, is read back with the same
      books (availability included) and the same members (borrowed lists
      included), and no line is refused. The activity log is not part of the two files. */
  lemma SaveThenLoad(c: Catalog, bookOrder: seq<string>, memberOrder: seq<string>)
    requires forall k :: k in c.books ==> c.books[k].isbn == k
    requires forall k :: k in c.members ==> c.members[k].id == k
    requires forall k :: k in c.books ==> BookSavable(c.books[k])
    requires forall k :: k in c.members ==> MemberSavable(c.members[k])
    requires forall k :: k in c.books <==> k in bookOrder
    requires forall k :: k in c.members <==> k in memberOrder
    ensures Load(Empty(), SaveBooks(c.books, bookOrder), SaveMembers(c.members, memberOrder))
      == Loaded(Catalog(c.books, c.members, []), None)
  {
    LoadSavedBooks(c.books, bookOrder);
    LoadSavedMembers(c.members, memberOrder);
  }

  /** Reading back the book file written for every key of a map of savable
      books, each stored under its own ISBN, gives that map. */
  lemma LoadSavedBooks(books: map<string, Book>, order: seq<string>)
    requires forall k :: k in books ==> BookSavable(books[k]) && books[k].isbn == k
    requires forall k :: k in books <==> k in order
    ensures LoadLines(map[], ReadLines(SaveBooks(books, order)), ParseBookLine, BookKey) == Partial(books, None)
  {
    var lines := RenderAll(books, order, BookLine);
    forall i | 0 <= i < |order|
      ensures IsLine(lines[i]) && ParseBookLine(BookLine(books[order[i]])) == Some(books[order[i]])
    {
      BookLineRoundTrip(books[order[i]]);
    }
    ReadBackLines(lines);
    LoadRenderedLines(map[], books, order, BookLine, ParseBookLine, BookKey);
    RestrictToAllKeys(books, order);
  }

  /** Reading back the member file written for every key of a map of savable
      members, each stored under its own identifier, gives that map. */
  lemma LoadSavedMembers(members: map<string, Member>, order: seq<string>)
    requires forall k :: k in members ==> MemberSavable(members[k]) && members[k].id == k
    requires forall k :: k in members <==> k in order
    ensures LoadLines(map[], ReadLines(SaveMembers(members, order)), ParseMemberLine, MemberKey) == Partial(members, None)
  {
    var lines := RenderAll(members, order, MemberLine);
    forall i | 0 <= i < |order|
      ensures IsLine(lines[i]) && ParseMemberLine(MemberLine(members[order[i]])) == Some(members[order[i]])
    {
      MemberLineRoundTrip(members[order[i]]);
    }
    ReadBackLines(lines);
    LoadRenderedLines(map[], members, order, MemberLine, ParseMemberLine, MemberKey);
    RestrictToAllKeys(members, order);
  }

  lemma RestrictToAllKeys<T>(entries: map<string, T>, order: seq<string>)
    requires forall k :: k in entries <==> k in order
    ensures map[] + (map k | k in entries && k in order :: entries[k]) == entries
  {
    var r := map k | k in entries && k in order :: entries[k];
    assert r.Keys == entries.Keys;
    assert map[] + r == r;
  }

  /** Which file held the line whose parse raised, and its index. */
  datatype LoadError = BadBookLine(index: nat) | BadMemberLine(index: nat)

  /** The catalog after loading, and the error that stopped it, if any. */
  datatype Loaded = Loaded(catalog: Catalog, error: Option<LoadError>)

  /** `charger_donnees`: the book file is read into the existing book map,
      then the member file into the existing member map. An error in the book
      file stops the load before the member file is read. A missing file is
      modelled by an empty text: both yield no line. */
  function Load(c: Catalog, booksText: string, membersText: string): (r: Loaded)
    ensures r.catalog.log == c.log
    ensures c.books.Keys <= r.catalog.books.Keys
    ensures c.members.Keys <= r.catalog.members.Keys
    ensures r.error.Some? && r.error.value.BadBookLine? ==> r.catalog.members == c.members
    ensures var b := LoadLines(c.books, ReadLines(booksText), ParseBookLine, BookKey);
      && r.catalog.books == b.entries
      && (b.failedAt.Some? <==> r.error.Some? && r.error.value.BadBookLine?)
      && (b.failedAt.Some? ==> r.error.value.index == b.failedAt.value)
    ensures r.error.None? || r.error.value.BadMemberLine? ==>
      var m := LoadLines(c.members, ReadLines(membersText), ParseMemberLine, MemberKey);
      && r.catalog.members == m.entries
      && (m.failedAt.Some? <==> r.error.Some?)
      && (m.failedAt.Some? ==> r.error.value.index == m.failedAt.value)
  {
    var b := LoadLines(c.books, ReadLines(booksText), ParseBookLine, BookKey);
    if b.failedAt.Some? then
      Loaded(c.(books := b.entries), Some(BadBookLine(b.failedAt.value)))
    else
      var m := LoadLines(c.members, ReadLines(membersText), ParseMemberLine, MemberKey);
      Loaded(c.(books := b.entries, members := m.entries),
             if m.failedAt.Some? then Some(BadMemberLine(m.failedAt.value)) else None)
  }
}

=== FILE: text.dfy ===
/** The Python string built-ins the persistence code relies on: `str.strip()`,
    `str.split(sep)`, `sep.join(parts)`, and the way iterating over a file
    opened in text mode cuts its content into lines. */
module Text {

  /** The characters Python's `str.isspace()` accepts, which is the set that
      `strip()` without an argument removes. */
  predicate IsSpace(c: char) {
    || c == ' ' || c == '\t' || c == '\n' || c == '\r' || c == '\U{0B}' || c == '\U{0C}'
    || ('\U{1C}' <= c <= '\U{1F}')
    || c == '\U{85}' || c == '\U{A0}' || c == '\U{1680}'
    || ('\U{2000}' <= c <= '\U{200A}')
    || c == '\U{2028}' || c == '\U{2029}' || c == '\U{202F}' || c == '\U{205F}' || c == '\U{3000}'
  }

  /** `s` does not start with a character `strip()` would remove. */
  predicate LeadingKept(s: string) {
    s == [] || !IsSpace(s[0])
  }

  /** `s` does not end with a character `strip()` would remove. */
  predicate TrailingKept(s: string) {
    s == [] || !IsSpace(s[|s| - 1])
  }

  /** `s` without its leading whitespace: the longest suffix of `s` whose
      dropped prefix is all whitespace. */
  function StripLeading(s: string): (r: string)
    ensures |r| <= |s| && r == s[|s| - |r|..]
    ensures forall k :: 0 <= k < |s| - |r| ==> IsSpace(s[k])
    ensures LeadingKept(r)
  {
    if s != [] && IsSpace(s[0]) then StripLeading(s[1..]) else s
  }

  /** `s` without its trailing whitespace. */
  function StripTrailing(s: string): (r: string)
    ensures |r| <= |s| && r == s[..|r|]
    ensures forall k :: |r| <= k < |s| ==> IsSpace(s[k])
    ensures TrailingKept(r)
  {
    if s != [] && IsSpace(s[|s| - 1]) then StripTrailing(s[..|s| - 1]) else s
  }

  /** Python's `s.strip()`: a piece of `s` that neither starts nor ends with
      whitespace, with only whitespace cut off around it. */
  function Strip(s: string): (r: string)
    ensures |r| <= |s| && LeadingKept(r) && TrailingKept(r)
    ensures exists i :: TrimmedAt(s, r, i)
  {
    var l := StripLeading(s);
    var r := StripTrailing(l);
    StripBothEnds(s, l, r);
    r
  }

  /** Cutting a whitespace prefix from `s` and then a whitespace suffix
      from what is left leaves a piece of `s` with only whitespace around it,
      and the piece keeps its first character. */
  lemma StripBothEnds(s: string, l: string, r: string)
    requires |l| <= |s| && l == s[|s| - |l|..]
    requires forall k :: 0 <= k < |s| - |l| ==> IsSpace(s[k])
    requires |r| <= |l| && r == l[..|r|]
    requires forall k :: |r| <= k < |l| ==> IsSpace(l[k])
    requires LeadingKept(l)
    ensures TrimmedAt(s, r, |s| - |l|)
    ensures LeadingKept(r)
  {
    var i := |s| - |l|;
    assert l == s[i..] && r == l[..|r|];
    assert r == s[i..i + |r|];
    forall k | i + |r| <= k < |s|
      ensures IsSpace(s[k])
    {
      assert IsSpace(l[k - i]);
      assert s[k] == l[k - i];
    }
    assert forall k :: 0 <= k < i ==> IsSpace(s[k]);
    if r != [] {
      assert r[0] == l[0];
    }
  }

  /** `r` is the piece of `s` starting at `i`, and everything of `s` around
      it is whitespace. */
  predicate TrimmedAt(s: string, r: string, i: int) {
    && 0 <= i <= |s| - |r| && r == s[i..i + |r|]
    && (forall k :: 0 <= k < i ==> IsSpace(s[k]))
    && (forall k :: i + |r| <= k < |s| ==> IsSpace(s[k]))
  }

  /** Stripping the trailing whitespace of a text whose own end is not
      whitespace removes exactly the whitespace appended to it. */
  lemma {:induction false} StripTrailingTail(x: string, tail: string)
    requires TrailingKept(x)
    requires forall k :: 0 <= k < |tail| ==> IsSpace(tail[k])
    ensures StripTrailing(x + tail) == x
  {
    var s := x + tail;
    if tail != [] {
      assert s[|s| - 1] == tail[|tail| - 1];
      assert s[..|s| - 1] == x + tail[..|tail| - 1];
      StripTrailingTail(x, tail[..|tail| - 1]);
    } else {
      assert s == x;
    }
  }

  /** Stripping a text whose own ends are not whitespace removes exactly the
      whitespace appended to it (for a saved record: its line break). */
  lemma StripRemovesTail(x: string, tail: string)
    requires LeadingKept(x) && TrailingKept(x)
    requires forall k :: 0 <= k < |tail| ==> IsSpace(tail[k])
    ensures Strip(x + tail) == x
  {
    if x == [] {
      assert x + tail == tail;
      assert StripLeading(tail) == [];
    } else {
      assert (x + tail)[0] == x[0];
      assert StripLeading(x + tail) == x + tail;
      StripTrailingTail(x, tail);
    }
  }

  /** Python's `sep.join(parts)`: the parts in order with one separator
      between neighbours. */
  function Join(parts: seq<string>, sep: char): (r: string)
    ensures |parts| >= 1 ==> parts[0] <= r
    ensures |parts| >= 2 ==> |r| > |parts[0]| && r[|parts[0]|] == sep
  {
    if |parts| == 0 then []
    else if |parts| == 1 then parts[0]
    else parts[0] + [sep] + Join(parts[1..], sep)
  }

  /** Python's `s.split(sep)`: the pieces between separators, at least one,
      none holding the separator, and joined back they give `s`. */
  function Split(s: string, sep: char): (parts: seq<string>)
    ensures |parts| >= 1
    ensures forall i :: 0 <= i < |parts| ==> sep !in parts[i]
    ensures Join(parts, sep) == s
  {
    if s == [] then [[]]
    else
      var rest := Split(s[1..], sep);
      if s[0] == sep then
        assert ([[]] + rest)[1..] == rest;
        [[]] + rest
      else
        assert [s[0]] + rest[0] + (if |rest| == 1 then [] else [sep] + Join(rest[1..], sep)) == s;
        assert ([[s[0]] + rest[0]] + rest[1..])[1..] == rest[1..];
        [[s[0]] + rest[0]] + rest[1..]
  }

  /** A separator-free text splits into itself. */
  lemma {:induction false} SplitWithoutSep(a: string, sep: char)
    requires sep !in a
    ensures Split(a, sep) == [a]
  {
    if a != [] {
      SplitWithoutSep(a[1..], sep);
      assert [a[0]] + a[1..] == a;
    }
  }

  /** Splitting stops at the first separator. */
  lemma {:induction false} SplitAtFirstSep(a: string, sep: char, t: string)
    requires sep !in a
    ensures Split(a + [sep] + t, sep) == [a] + Split(t, sep)
  {
    var s := a + [sep] + t;
    if a == [] {
      assert s[1..] == t;
    } else {
      assert s[1..] == a[1..] + [sep] + t;
      SplitAtFirstSep(a[1..], sep, t);
      assert [a[0]] + a[1..] == a;
    }
  }

  /** `split` undoes `join` when no part holds the separator. */
  lemma {:induction false} SplitJoin(parts: seq<string>, sep: char)
    requires |parts| >= 1
    requires forall i :: 0 <= i < |parts| ==> sep !in parts[i]
    ensures Split(Join(parts, sep), sep) == parts
  {
    if |parts| == 1 {
      SplitWithoutSep(parts[0], sep);
    } else {
      SplitJoin(parts[1..], sep);
      SplitAtFirstSep(parts[0], sep, Join(parts[1..], sep));
      assert [parts[0]] + parts[1..] == parts;
    }
  }

  /** A character that is neither the separator nor in any part is not in the
      joined text. */
  lemma {:induction false} JoinAvoids(parts: seq<string>, sep: char, c: char)
    requires c != sep
    requires forall i :: 0 <= i < |parts| ==> c !in parts[i]
    ensures c !in Join(parts, sep)
  {
    if |parts| > 1 {
      JoinAvoids(parts[1..], sep, c);
    }
  }

  /** A join of several parts ends with the separator followed by the last part. */
  lemma {:induction false} JoinEndsWithLast(parts: seq<string>, sep: char)
    requires |parts| >= 2
    ensures var j, last := Join(parts, sep), parts[|parts| - 1];
      |j| > |last| && j[|j| - |last| - 1..] == [sep] + last
  {
    if |parts| > 2 {
      JoinEndsWithLast(parts[1..], sep);
    }
  }

  /** A join starts with its first part, or with the separator when that
      part is empty. */
  lemma JoinLeading(parts: seq<string>, sep: char)
    requires |parts| >= 2 && LeadingKept(parts[0]) && !IsSpace(sep)
    ensures Join(parts, sep) != [] && LeadingKept(Join(parts, sep))
  {
    var j := Join(parts, sep);
    assert j == parts[0] + [sep] + Join(parts[1..], sep);
    if parts[0] == [] {
      assert j[0] == sep;
    } else {
      assert j[0] == parts[0][0];
    }
  }

  /** A join ends with its last part, or with the separator when that part is
      empty. */
  lemma JoinTrailing(parts: seq<string>, sep: char)
    requires |parts| >= 1 && TrailingKept(parts[|parts| - 1]) && !IsSpace(sep)
    ensures TrailingKept(Join(parts, sep))
  {
    if |parts| >= 2 {
      var j, last := Join(parts, sep), parts[|parts| - 1];
      JoinEndsWithLast(parts, sep);
      assert j[|j| - |last| - 1..] == [sep] + last;
      assert j[|j| - 1] == ([sep] + last)[|last|];
    }
  }

  /** Reading back one record written as its fields joined by `sep` plus a
      line break: it is a complete line, and stripping and splitting it gives
      the fields back. */
  lemma SplitStrippedLine(fields: seq<string>, sep: char)
    requires |fields| >= 2 && !IsSpace(sep) && sep != '\r'
    requires forall i :: 0 <= i < |fields| ==> sep !in fields[i] && '\n' !in fields[i] && '\r' !in fields[i]
    requires LeadingKept(fields[0]) && TrailingKept(fields[|fields| - 1])
    ensures IsLine(Join(fields, sep) + "\n")
    ensures Split(Strip(Join(fields, sep) + "\n"), sep) == fields
  {
    var x := Join(fields, sep);
    JoinLeading(fields, sep);
    JoinTrailing(fields, sep);
    StripRemovesTail(x, "\n");
    SplitJoin(fields, sep);
    JoinAvoids(fields, sep, '\n');
    JoinAvoids(fields, sep, '\r');
    assert (x + "\n")[..|x + "\n"| - 1] == x;
  }

  /** The text of a sequence of lines written one after the other: it starts
      with the first line. */
  function Concat(lines: seq<string>): (r: string)
    ensures |lines| >= 1 ==> lines[0] <= r
  {
    if lines == [] then [] else lines[0] + Concat(lines[1..])
  }

  /** The lines Python yields when iterating over a text file whose content,
      after newline translation, is `t`: each line keeps its `'\n'`, only the
      last may lack one, and together they are the whole text. */
  function Lines(t: string): (lines: seq<string>)
    ensures Concat(lines) == t
    ensures forall i :: 0 <= i < |lines| ==> lines[i] != []
    ensures forall i :: 0 <= i < |lines| - 1 ==> lines[i][|lines[i]| - 1] == '\n'
    ensures forall i, k :: 0 <= i < |lines| && 0 <= k < |lines[i]| - 1 ==> lines[i][k] != '\n'
  {
    if t == [] then []
    else
      var rest := Lines(t[1..]);
      if t[0] == '\n' then
        assert (["\n"] + rest)[1..] == rest;
        ["\n"] + rest
      else if rest == [] then
        [[t[0]]]
      else
        assert ([[t[0]] + rest[0]] + rest[1..])[1..] == rest[1..];
        assert Concat(rest) == rest[0] + Concat(rest[1..]);
        [[t[0]] + rest[0]] + rest[1..]
  }

  /** A complete line: ends with `'\n'` and has no other line break. */
  predicate IsLine(l: string) {
    |l| >= 1 && l[|l| - 1] == '\n' && '\n' !in l[..|l| - 1] && '\r' !in l
  }

  /** Line iteration stops at the first line break. */
  lemma {:induction false} LinesAtFirstBreak(x: string, t: string)
    requires '\n' !in x
    ensures Lines(x + "\n" + t) == [x + "\n"] + Lines(t)
  {
    var s := x + "\n" + t;
    if x == [] {
      assert s[1..] == t;
    } else {
      assert s[0] == x[0] && s[1..] == x[1..] + "\n" + t;
      LinesAtFirstBreak(x[1..], t);
      var rest := Lines(s[1..]);
      assert rest == [x[1..] + "\n"] + Lines(t);
      assert rest[0] == x[1..] + "\n" && rest[1..] == Lines(t);
      assert [x[0]] + (x[1..] + "\n") == x + "\n";
    }
  }

  /** Reading back complete lines written one after the other gives those lines. */
  lemma {:induction false} LinesConcat(lines: seq<string>)
    requires forall i :: 0 <= i < |lines| ==> IsLine(lines[i])
    ensures Lines(Concat(lines)) == lines
  {
    if lines != [] {
      var l := lines[0];
      var x := l[..|l| - 1];
      assert l == x + "\n";
      LinesConcat(lines[1..]);
      LinesAtFirstBreak(x, Concat(lines[1..]));
      assert [lines[0]] + lines[1..] == lines;
    }
  }

  /** Universal-newline translation applied when a file is read in text mode:
      `"\r\n"` and a lone `'\r'` both become `'\n'`. */
  function Translate(t: string): (r: string)
    ensures '\r' !in r
    ensures |r| <= |t|
  {
    if t == [] then []
    else if t[0] == '\r' then
      if |t| > 1 && t[1] == '\n' then "\n" + Translate(t[2..]) else "\n" + Translate(t[1..])
    else [t[0]] + Translate(t[1..])
  }

  /** A text without carriage returns is read back unchanged. */
  lemma {:induction false} TranslateWithoutCr(t: string)
    requires '\r' !in t
    ensures Translate(t) == t
  {
    if t != [] {
      TranslateWithoutCr(t[1..]);
      assert [t[0]] + t[1..] == t;
    }
  }

  /** A `"\r\n"` pair is read as one `'\n'`, and the text before it is kept. */
  lemma {:induction false} TranslateCrLf(x: string, t: string)
    requires '\r' !in x
    ensures Translate(x + "\r\n" + t) == x + "\n" + Translate(t)
  {
    if x == [] {
      assert (x + "\r\n" + t)[2..] == t;
    } else {
      assert (x + "\r\n" + t)[1..] == x[1..] + "\r\n" + t;
      TranslateCrLf(x[1..], t);
      assert [x[0]] + x[1..] == x;
    }
  }

  /** A carriage return not followed by `'\n'` is read as one `'\n'`, and the
      text before it is kept. */
  lemma {:induction false} TranslateLoneCr(x: string, t: string)
    requires '\r' !in x
    requires t == [] || t[0] != '\n'
    ensures Translate(x + "\r" + t) == x + "\n" + Translate(t)
  {
    if x == [] {
      assert (x + "\r" + t)[1..] == t;
    } else {
      assert (x + "\r" + t)[1..] == x[1..] + "\r" + t;
      TranslateLoneCr(x[1..], t);
      assert [x[0]] + x[1..] == x;
    }
  }

  /** The lines `for ligne in f` yields for a file whose stored text is `t`. */
  function ReadLines(t: string): (lines: seq<string>)
    ensures Concat(lines) == Translate(t)
    ensures forall i :: 0 <= i < |lines| ==> lines[i] != [] && '\r' !in lines[i]
  {
    var lines := Lines(Translate(t));
    ConcatCovers(lines);
    lines
  }

  /** Every character of every line is in the text the lines make up. */
  lemma {:induction false} ConcatCovers(lines: seq<string>)
    ensures forall i, c :: 0 <= i < |lines| && c in lines[i] ==> c in Concat(lines)
  {
    if lines != [] {
      ConcatCovers(lines[1..]);
      forall i, c | 0 <= i < |lines| && c in lines[i]
        ensures c in Concat(lines)
      {
        if i > 0 {
          assert lines[i] == lines[1..][i - 1];
        }
      }
    }
  }

  /** Writing complete lines and reading the file back yields the same lines. */
  lemma ReadBackLines(lines: seq<string>)
    requires forall i :: 0 <= i < |lines| ==> IsLine(lines[i])
    ensures ReadLines(Concat(lines)) == lines
  {
    ConcatAvoidsCr(lines);
    TranslateWithoutCr(Concat(lines));
    LinesConcat(lines);
  }

  lemma {:induction false} ConcatAvoidsCr(lines: seq<string>)
    requires forall i :: 0 <= i < |lines| ==> '\r' !in lines[i]
    ensures '\r' !in Concat(lines)
  {
    if lines != [] {
      ConcatAvoidsCr(lines[1..]);
    }
  }
}

=== FILE: wrappers.dfy ===
/** Failure-carrying return types shared by the catalog model. */
module Wrappers {

  /** An optional value: `None` stands for "nothing" (or for a Python exception
      that aborts a parse). */
  datatype Option<+T> = None | Some(value: T)

  /** The outcome of an operation that either succeeds with a value or fails
      with an error kind. */
  datatype Result<+T, +E> = Ok(value: T) | Err(error: E)
}
